=== FILE: README.md ===
# Kubeshark hub core, modelled in Dafny

This project models the core of the Kubeshark hub, the gateway between the packet-capture
side, the entry store (Basenine) and the browser clients. It covers six Go files:

- **Stream controller** (`pkg/api/socket_data_streamer.go`). A subscriber's stream goes through
  these steps: dial the store, validate the query, and optionally replay a bounded batch of
  history. The store returns that batch newest first; it is sent to the subscriber oldest
  first, after the last metadata record. Then the live query opens from the resume cursor
  taken from the first metadata record. Two feed listeners forward live entries and
  metadata until the close sentinel arrives.
- **Insertion pipeline** (`pkg/api/socket_data_inserter.go`). One process-wide inserter holds
  at most one store connection. `Insert` dials lazily, retrying until a connection is in
  insert mode. It sends each serialized entry once. After a failed send it closes and
  forgets the connection, so the next call dials again.
- **Replay executor** (`pkg/replay/replay.go`). It admits at most five replays at a time. It
  re-sends the request with a `x-kubeshark` marker header, then turns the live response
  into an entry wrapper through the http extension. Every exit releases the slot.
- **Entries provider** (`pkg/entries/entries_provider.go`). It serves page and single-entry
  queries. Each stored row is resolved through the protocols map and then the extensions
  map. The first row that fails ends the whole call.
- **Extension registry and traffic filter** (`pkg/app/main.go`). The registry is rebuilt from
  the http, amqp, kafka and redis dissectors and sorted by priority. `FilterItems` drops
  outgoing traffic to service IPs.
- **OpenAPI generator state** (`pkg/oas/oas_generator.go`). It is a started/stopped flag plus
  a map from destination to spec generator. The map is cleared on stop, and a generator is
  created on the first http entry seen for each destination.

Calls into code that is not part of the model become parameters. These are the store
client, JSON encoding, the dissectors, the HTTP client, the clock, the identifier
generator and URL parsing. A store or socket call is an oracle value or a total function
from its arguments to an outcome. The stream controller and the insertion pipeline return
the *trace* of the calls they make (`Call`, `StoreCall`), so the contracts can state order
and absence. A nil-pointer dereference that the Go code can reach ends in an explicit
`Panicked` outcome rather than being ruled out by a precondition. Two places do this:
replay with a missing http extension or a nil entry, and `getGen` after a URL parse error.

Modules:
- `Wrappers` holds `Option`, `Result` and `Outcome`.
- `BaseApi` holds the foreign records and the dissector library.
- `SocketDataStreamer`, `SocketDataInserter`, `Replay`, `EntriesProvider`, `App` and
  `OasGenerator` each model one Go file.

When the store fetch or the first-metadata decode fails, `fetch` returns its zero-valued
named result, so the live query opens from the empty cursor `""`, not from the
subscriber's cursor (`pkg/api/socket_data_streamer.go:131-138, 96`).
`SocketDataStreamer.Fetch` and `SocketDataStreamer.Get` state this.

## Model

| member | source | states |
|---|---|---|
| SocketDataStreamer.ReverseBytesSlice | pkg/api/socket_data_streamer.go:166-171 | The result has the input's length, element i is `arr[len-1-i]`, and it equals `Reversed(arr)`. The loop carries the invariant for the part built so far. |
| SocketDataStreamer.ReversedTwice | pkg/api/socket_data_streamer.go:166-171 | Reversing the batch twice gives it back. |
| SocketDataStreamer.Fetch | pkg/api/socket_data_streamer.go:113-163 | `fetch` equals the functional model `FetchModel`. With fetch count <= 0 nothing is called and the client's cursor is returned. Otherwise the store fetch comes first: from the subscriber's cursor, newest first (direction -1), with its query, count and timeout. A failed fetch or first-metadata decode returns cursor `""` and an error. A decoded first metadata gives the resume cursor. Every entry send comes after the last-metadata send. |
| SocketDataStreamer.DeliverSendsDecodablePrefix | pkg/api/socket_data_streamer.go:151-161 | The entries delivered extend those already sent by a prefix of the decodable rows. Every send before the last one succeeded. Unless the last send failed, the delivered entries are the whole decodable prefix. |
| SocketDataStreamer.DeliverAllWhenNothingFails | pkg/api/socket_data_streamer.go:151-161 | When every row decodes and every send succeeds, all rows are delivered in order without error. |
| SocketDataStreamer.DeliverPassOnlyWhenComplete | pkg/api/socket_data_streamer.go:151-161 | A delivery that ends without error has delivered every row. |
| SocketDataStreamer.FetchSendsPrefixOfReversedBatch | pkg/api/socket_data_streamer.go:142-161 | After the last metadata is sent, the calls are the fetch, that metadata, then sends of a prefix of the decodable part of the reversed batch. Every send but the last succeeded. Unless the last send failed, the entries sent are the whole decodable prefix of the reversed batch. An error-free fetch sent the whole batch. |
| SocketDataStreamer.FetchDeliversOldestFirst | pkg/api/socket_data_streamer.go:135-161 | When nothing fails, the subscriber gets the last metadata and then all rows in the reverse of the store's order. The resume cursor is the first metadata's. |
| SocketDataStreamer.FetchScenario | pkg/api/socket_data_streamer.go:113-163 | Rows [e3, e2, e1] fetched from cursor "C" reach the subscriber as metadata(c1), e1, e2, e3, and the live query resumes from "c3". |
| SocketDataStreamer.Listen | pkg/api/socket_data_streamer.go:51-91 | A feed listener reads in order and stops at the first close sentinel. It skips items that do not decode and forwards the rest in arrival order. It stops at the first failed send, and it fails only on a send, that of the last item read, which decoded to the last value forwarded. |
| SocketDataStreamer.Get | pkg/api/socket_data_streamer.go:21-110 | The full call sequence of every exit. A dial failure cleans up the socket. A validation failure sends a toast, then cleans up unless the toast failed, and never fetches or queries. Otherwise the fetch is followed by the live query from the fetch's cursor, with cleanup if the query fails. The result is nil iff dial, validation and query succeed. Cancellation pushes the sentinel on data, then on meta, then closes; nothing else closes the connection. |
| SocketDataInserter.FailedRoundsCloseEveryConnection | pkg/api/socket_data_inserter.go:54-72 | In rounds that all failed, every insert-mode call is followed at once by closing that connection. |
| SocketDataInserter.RoundsCallsShape | pkg/api/socket_data_inserter.go:54-72 | The dial rounds start with a dial and never send text. |
| SocketDataInserter.FirstReady | pkg/api/socket_data_inserter.go:54-72 | Picks the first round that both dialed and entered insert mode: that round is ready and no earlier one is. |
| SocketDataInserter.InitializeConnection | pkg/api/socket_data_inserter.go:54-72 | The loop stops at the first round that both dialed and entered insert mode (`FirstReady`), and returns that connection. Earlier rounds all failed, each connection whose insert mode failed was closed, and the calls are exactly those of the rounds. |
| SocketDataInserter.EntryInserter.constructor | pkg/api/socket_data_inserter.go:19-21 | A new inserter has no connection. |
| SocketDataInserter.EntryInserter.Insert | pkg/api/socket_data_inserter.go:34-52 | With no connection it first makes exactly the dial rounds up to the first ready one, then sends on that connection (or keeps it, on a marshal failure). An existing connection is reused without dialing. At most one text is sent. A marshal failure sends nothing and keeps the connection, with the source's message. A successful send keeps the connection it used. A failed send closes that connection, forgets it and returns the source's message. |
| SocketDataInserter.InserterHolder.constructor | pkg/api/socket_data_inserter.go:23-24 | No instance exists before the first call. |
| SocketDataInserter.InserterHolder.GetInstance | pkg/api/socket_data_inserter.go:26-32 | Every call returns the same instance, and the first one is a new inserter with no connection. |
| SocketDataInserter.ReDialAfterSendFailure | pkg/api/socket_data_inserter.go:34-49 | After a failed send, the next `Insert` on the same inserter dials again. |
| Replay.ToUpper | pkg/replay/replay.go:112 | The method keeps its length and has no lower-case letter left. Each lower-case ASCII letter becomes its upper-case letter, and every other character is kept. |
| Replay.ToUpperIdempotent | pkg/replay/replay.go:112 | Upper-casing twice is upper-casing once. |
| Replay.AddHeaders | pkg/replay/replay.go:121-123 | Every header pair of the map is added exactly once, in some order. |
| Replay.SentRequest | pkg/replay/replay.go:112-124 | The sent request has the upper-cased method, the URL and body, then the added headers, then the `x-kubeshark` marker last. |
| Replay.ReplayItem | pkg/replay/replay.go:58-89 | The capture item carries the http extension's protocol, the request and the response with capture size 0 and one capture time. The connection info is fixed: empty IPs, ports "1", not outgoing, no capture source. So the traffic filter never drops it. |
| Replay.EntryFromRequestResponse | pkg/replay/replay.go:55-102 | The entry exists iff the capture item's JSON round trip succeeds, and it is the dissector's analysis of the round-tripped item. |
| Replay.Replayed | pkg/replay/replay.go:108-176 | A failed request construction or a failed send returns that error. A panic happens iff the send succeeded and the http extension is missing or the entry is nil. A response is successful iff it has data. A successful one has an empty message, the http protocol, and the dissector's representation of the round-tripped entry. Once the response is analyzed into an entry, a failed entry round trip or a failed representation returns that error. Otherwise the wrapper holds the http protocol, the representation, the round-tripped entry and the summary of the analyzed entry. |
| Replay.Decimal | pkg/replay/replay.go:181 | The `%d` text of a non-negative integer is a non-empty string of decimal digits with no leading zero. |
| Replay.DecimalRoundTrip | pkg/replay/replay.go:181 | Reading the `%d` text of `n` back as a decimal number gives `n`. |
| Replay.ThresholdMessage | pkg/replay/replay.go:177-183 | The refusal message, built from the ceiling of five by `%d`, is "reached threshold of 5 requests". |
| Replay.Counter.constructor | pkg/replay/replay.go:18-21 | The counter starts at zero. |
| Replay.Counter.IncrementCounter | pkg/replay/replay.go:38-47 | Admits iff fewer than five replays are in flight, and counts the admitted one. The bound 0..5 is preserved. |
| Replay.Counter.DecrementCounter | pkg/replay/replay.go:49-53 | The count goes down by one, and the bound 0..5 is kept when a replay was counted. |
| Replay.Counter.ExecuteRequest | pkg/replay/replay.go:104-184 | With five in flight it refuses with the threshold message, adds no header, and neither builds nor sends a request. Otherwise it builds the request; when that succeeds it sends exactly `SentRequest` with its headers added, and it returns the replay of that request. On every exit the count is back to its old value and within bounds. |
| Replay.SixthReplayRefused | pkg/replay/replay.go:38-47 | With none finishing, five replays are admitted, the sixth is refused, and the count stays at five. |
| EntriesProvider.Resolve | pkg/entries/entries_provider.go:41-49 | Resolution succeeds iff the protocol key is in the protocols map and that protocol's name is in the extensions map. A missing protocol fails with "protocol not found, protocol: <nil>", and a missing extension with "extension not found, extension: " plus the name. |
| EntriesProvider.WrapRow | pkg/entries/entries_provider.go:34-57 | A row that does not decode fails with the decode error. A decoded row is wrapped iff it resolves, and otherwise fails with the resolution's error. The wrapper has the entry, its protocol, the summary by its extension's dissector, and no representation. |
| EntriesProvider.GetEntries | pkg/entries/entries_provider.go:24-67 | A store error is returned as is. On success there is one wrapper per row, in order, each equal to that row's wrapping, and the metadata is present iff it decodes. A failure is the error of the first row that fails. The page succeeds iff every row wraps. |
| EntriesProvider.GetEntry | pkg/entries/entries_provider.go:69-103 | A store error is returned as is, and an undecodable row fails with its raw text. A row that decodes but does not wrap fails with the wrapping's error, and a failed representation fails with the representation's error. The call succeeds iff the row wraps and its dissector represents it. The result is the row's wrapping with that representation. |
| App.Registered | pkg/app/main.go:33-75 | One extension per dissector, in registration order, carrying the protocol its dissector registers. |
| App.ExtensionsByNameLastWins | pkg/app/main.go:28-75 | A name is in the extensions map iff some dissector registers it, and it maps to the last such dissector's extension. |
| App.MergedProtocolsLastWins | pkg/app/main.go:28-75 | A key is in the protocols map iff some dissector declares it, with the value of the last dissector that does. |
| App.MinFrom | pkg/app/main.go:77-79 | Finds a lowest-priority extension in the unsorted part. |
| App.SortByPriority | pkg/app/main.go:77-79 | The extensions are sorted by priority and are a permutation of the input. |
| App.MergeInto | pkg/app/main.go:40-42 | Copying a dissector's protocols overwrites the keys they share with the map and adds the rest. |
| App.Registry.constructor | pkg/app/main.go:22-26 | The registry starts empty. |
| App.Registry.LoadExtensions | pkg/app/main.go:28-83 | The list is a priority-sorted permutation of the four registered extensions. The extensions map is the last-wins map by protocol name, and the protocols map is the last-wins union of the dissectors' protocols. Nothing from before survives. |
| App.KeptConcat | pkg/app/main.go:127-135 | Filtering a stream piece by piece gives the filtering of the whole stream. |
| App.KeptMembers | pkg/app/main.go:127-135 | A message is forwarded iff it arrived and is not outgoing to a service IP. |
| App.FilterItems | pkg/app/main.go:127-135 | The output is the input minus outgoing messages to service IPs, in order, and is no longer than the input. |
| OasGenerator.GenFor | pkg/oas/oas_generator.go:110-126 | A known destination yields its stored generator and leaves the map unchanged. A new destination adds exactly that key, with base URL scheme + "://" + dest and the configured example length. A new destination whose URL did not parse panics. |
| OasGenerator.GenForStable | pkg/oas/oas_generator.go:116-124 | Looking up a destination again finds the generator the first look-up made, whatever the URL. |
| OasGenerator.OasGenerator.constructor | pkg/oas/oas_generator.go:136-142 | A new generator is stopped, has an empty spec map and has the given example length. |
| OasGenerator.OasGenerator.Start | pkg/oas/oas_generator.go:43-45 | The generator is started and its specs are unchanged, so starting twice is starting once. |
| OasGenerator.OasGenerator.Stop | pkg/oas/oas_generator.go:47-55 | The generator ends stopped. Stopping a stopped generator changes nothing; stopping a started one empties the spec map. |
| OasGenerator.OasGenerator.Reset | pkg/oas/oas_generator.go:128-130 | The spec map is empty and the flag is unchanged. |
| OasGenerator.StartThenStop | pkg/oas/oas_generator.go:43-59 | Starting a generator and then stopping it leaves it reporting not started and an empty spec map, whatever it held before. |
| OasGenerator.OasGenerator.GetGen | pkg/oas/oas_generator.go:110-126 | The result and the new map are those `GenFor` gives; the flag is unchanged. |
| OasGenerator.OasGenerator.HandleEntry | pkg/oas/oas_generator.go:61-108 | The spec map is unchanged when the generator is stopped, the entry is not http, the destination is empty or the HAR conversion fails. Otherwise the destination's generator is fetched or created as `GenFor` says. |
| OasGenerator.OasHolder.constructor | pkg/oas/oas_generator.go:13-16 | No instance exists before the first call. |
| OasGenerator.OasHolder.GetDefaultOasGeneratorInstance | pkg/oas/oas_generator.go:35-41 | Every call returns the same generator. The first call creates it stopped and empty, with the first caller's example length. |

## Left out

- The store client (`NewConnection`, `Validate`, `Fetch`, `Query`, `Single`, `SendText`, `InsertMode`, `Close`) is network I/O. Each call is an oracle outcome.
- JSON encoding and decoding are parameters. A row that decodes to JSON `null` gives Go a nil pointer, and that case is not modelled.
- The dissectors' `Register`, `GetProtocols`, `Summarize`, `Represent` and `Analyze` are foreign code, modelled as uninterpreted functions.
- `api.InitMaps` and `providers.InitProtocolToColor` (pkg/app/main.go:81-82) are foreign calls that only hand the maps on.
- `ConfigureBasenineServer` (pkg/app/main.go:85-116) does TCP waiting, fatal logging and store administration at start-up. It is not part of this model.
- `GetEntryInputChannel` (pkg/app/main.go:118-125) only wires goroutines together. It is not part of this model.
- Goroutines, channels and mutexes are modelled sequentially: the two listeners by `Listen`, the cancellation goroutine by the `onCancel` trace, the replay counter as a field. This leaves out several effects of the Go code. The listeners write the shared `err` variable concurrently. They keep running when the live query fails. Cancellation blocks on an unbuffered channel whose listener has already exited.
- Sockets and channels carry opaque messages. Sends to the subscriber are indexed by their position in the phase (`send(n)`).
- `SocketDataInserter.InitializeConnection`: the source retries without bound and sleeps between rounds. The model takes a finite sequence of rounds that ends in success, so backoff timing and non-termination against a dead store are not captured.
- `SocketDataInserter.EntryInserter.Insert`: the error `Close` returns is ignored, as in the source, and not modelled.
- `Replay.AddHeaders`: Go canonicalizes header keys (`x-kubeshark` is sent as `X-Kubeshark`). The model adds keys as given.
- `Replay.ToUpper`: only ASCII letters are upper-cased. Go's `strings.ToUpper` also maps other Unicode letters.
- `Replay.Replayed`: the http client, request construction, the identifier and both clock readings are parameters. A nil entry always ends in `Panicked`: marshalling it gives `null`, unmarshalling `null` leaves the round-tripped entry nil without an error, and reading its request for `Represent` then panics (`pkg/replay/replay.go:141-158`). Whether the http dissector's `Summarize` already panics earlier is not part of this model and does not change the outcome.
- The `Data` field of a replay response is `interface{}` in Go. It is modelled as an optional entry wrapper, the only value the source puts there.
- `EntriesProvider.GetEntries`: the request's direction, limit and timeout are passed to the store unread. Of the metadata record only `leftOff` is ever read.
- `OasGenerator.OasGenerator.HandleEntry`: `har.NewEntry`, `url.Parse`, `NewGen`, `feedEntry` and logging are not modelled. `har.NewEntry` is reduced to the request URL or an error, and `url.Parse` to a scheme or an error. Feeding the entry into its generator is left out, so a spec generator's content never changes in this model.
- `OasGenerator.OasGenerator.GetServiceSpecs`: Go returns a pointer to a shared `sync.Map`, and the model returns a copy of the map. Later updates seen through that pointer, and the replacement of the map on reset, are not captured.
- Controllers, routes and the service-map model (`pkg/controllers`, `pkg/routes`, `pkg/servicemap`) are routing glue and plain declarations. They are not part of this model.

=== FILE: app.dfy ===
/**
 * The extension registry (`LoadExtensions`) and the capture-side traffic filter (`FilterItems`).
 *
 * The registry holds the process-wide list of extensions, the extension of each protocol
 * name, and the merged map from protocol key to protocol. It is rebuilt from the four
 * built-in dissectors (http, amqp, kafka, redis, in that order) and the list is sorted by
 * priority at the end.
 */
module App {
  import opened Wrappers
  import opened BaseApi

  /** The extension a dissector registers: the protocol its `Register` fills in, and the dissector. */
  function ExtensionOf(d: Dissector): Extension
  {
    Extension(d.registers, d)
  }

  /** The extensions of the dissectors, in registration order. */
  function Registered(ds: seq<Dissector>): (exts: seq<Extension>)
    ensures |exts| == |ds|
    ensures forall i :: 0 <= i < |ds| ==> exts[i] == ExtensionOf(ds[i])
  {
    if ds == [] then [] else Registered(ds[..|ds| - 1]) + [ExtensionOf(ds[|ds| - 1])]
  }

  /** The extension of each protocol name, a later registration overwriting an earlier one. */
  function ExtensionsByName(ds: seq<Dissector>): map<string, Extension>
  {
    if ds == [] then map[]
    else ExtensionsByName(ds[..|ds| - 1])[ds[|ds| - 1].registers.name := ExtensionOf(ds[|ds| - 1])]
  }

  /** The union of every dissector's protocols, in registration order; later keys overwrite earlier ones. */
  function MergedProtocols(ds: seq<Dissector>): map<string, Protocol>
  {
    if ds == [] then map[] else MergedProtocols(ds[..|ds| - 1]) + ds[|ds| - 1].protocols
  }

  /** A name is mapped iff some dissector registers it, and it maps to the LAST dissector that does. */
  lemma {:induction false} ExtensionsByNameLastWins(ds: seq<Dissector>, name: string)
    ensures name in ExtensionsByName(ds) <==> exists i :: 0 <= i < |ds| && ds[i].registers.name == name
    ensures forall i :: 0 <= i < |ds| && ds[i].registers.name == name &&
                        (forall j :: i < j < |ds| ==> ds[j].registers.name != name) ==>
              ExtensionsByName(ds)[name] == ExtensionOf(ds[i])
  {
    if ds != [] {
      var init := ds[..|ds| - 1];
      ExtensionsByNameLastWins(init, name);
      if name in ExtensionsByName(ds) && ds[|ds| - 1].registers.name != name {
        var i :| 0 <= i < |init| && init[i].registers.name == name;
        assert ds[i] == init[i];
      }
      forall i | 0 <= i < |init| && init[i].registers.name == name
        ensures ds[i].registers.name == name
      {
        assert ds[i] == init[i];
      }
    }
  }

  /** A key is merged iff some dissector declares it, with the value of the LAST dissector that does. */
  lemma {:induction false} MergedProtocolsLastWins(ds: seq<Dissector>, key: string)
    ensures key in MergedProtocols(ds) <==> exists i :: 0 <= i < |ds| && key in ds[i].protocols
    ensures forall i :: 0 <= i < |ds| && key in ds[i].protocols &&
                        (forall j :: i < j < |ds| ==> key !in ds[j].protocols) ==>
              MergedProtocols(ds)[key] == ds[i].protocols[key]
  {
    if ds != [] {
      var init := ds[..|ds| - 1];
      MergedProtocolsLastWins(init, key);
      if key in MergedProtocols(ds) && key !in ds[|ds| - 1].protocols {
        var i :| 0 <= i < |init| && key in init[i].protocols;
        assert ds[i] == init[i];
      }
      forall i | 0 <= i < |init| && key in init[i].protocols
        ensures key in ds[i].protocols
      {
        assert ds[i] == init[i];
      }
    }
  }

  predicate SortedByPriority(exts: seq<Extension>)
  {
    forall i, j :: 0 <= i < j < |exts| ==> exts[i].protocol.priority <= exts[j].protocol.priority
  }

  /** The position of a lowest-priority extension in `a[from..]`. */
  method MinFrom(a: array<Extension>, from: nat) returns (m: nat)
    requires from < a.Length
    ensures from <= m < a.Length
    ensures forall q :: from <= q < a.Length ==> a[m].protocol.priority <= a[q].protocol.priority
  {
    m := from;
    var j := from + 1;
    while j < a.Length
      invariant from <= m < a.Length && from < j <= a.Length
      invariant forall q :: from <= q < j ==> a[m].protocol.priority <= a[q].protocol.priority
    {
      if a[j].protocol.priority < a[m].protocol.priority {
        m := j;
      }
      j := j + 1;
    }
  }

  /** `sort.Slice` by priority: an in-place, not necessarily stable, sort (selection sort here). */
  method SortByPriority(a: array<Extension>)
    modifies a
    ensures SortedByPriority(a[..])
    ensures multiset(a[..]) == old(multiset(a[..]))
  {
    var i := 0;
    while i < a.Length
      invariant 0 <= i <= a.Length
      invariant SortedByPriority(a[..i])
      invariant forall p, q :: 0 <= p < i <= q < a.Length ==> a[p].protocol.priority <= a[q].protocol.priority
      invariant multiset(a[..]) == old(multiset(a[..]))
    {
      var m := MinFrom(a, i);
      a[i], a[m] := a[m], a[i];
      i := i + 1;
    }
    assert a[..] == a[..a.Length];
  }

  /** Copy every entry of `protocols` into `into`, overwriting keys already present. */
  method MergeInto(into: map<string, Protocol>, protocols: map<string, Protocol>)
    returns (merged: map<string, Protocol>)
    ensures merged == into + protocols
  {
    merged := into;
    var todo := protocols.Keys;
    while todo != {}
      invariant todo <= protocols.Keys
      invariant merged.Keys == into.Keys + (protocols.Keys - todo)
      invariant forall k :: k in merged ==> merged[k] == (if k in protocols.Keys - todo then protocols[k] else into[k])
      decreases todo
    {
      var k :| k in todo;
      merged := merged[k := protocols[k]];
      todo := todo - {k};
    }
  }

  class Registry {
    var extensions: seq<Extension>
    var extensionsMap: map<string, Extension>
    var protocolsMap: map<string, Protocol>

    constructor ()
      ensures extensions == [] && extensionsMap == map[] && protocolsMap == map[]
    {
      extensions, extensionsMap, protocolsMap := [], map[], map[];
    }

    /**
     * `LoadExtensions`: rebuild the list and both maps from empty, registering the four
     * dissectors in order, then sort the list by priority. Nothing of the previous contents survives.
     */
    method LoadExtensions(http: Dissector, amqp: Dissector, kafka: Dissector, redis: Dissector)
      modifies this
      ensures SortedByPriority(extensions)
      ensures multiset(extensions) == multiset(Registered([http, amqp, kafka, redis]))
      ensures extensionsMap == ExtensionsByName([http, amqp, kafka, redis])
      ensures protocolsMap == MergedProtocols([http, amqp, kafka, redis])
    {
      var dissectors := [http, amqp, kafka, redis];
      var exts: seq<Extension> := [];
      var byName: map<string, Extension> := map[];
      var merged: map<string, Protocol> := map[];
      var i := 0;
      while i < |dissectors|
        invariant 0 <= i <= |dissectors|
        invariant exts == Registered(dissectors[..i])
        invariant byName == ExtensionsByName(dissectors[..i])
        invariant merged == MergedProtocols(dissectors[..i])
      {
        var d := dissectors[i];
        var extension := Extension(d.registers, d);
        exts := exts + [extension];
        byName := byName[extension.protocol.name := extension];
        merged := MergeInto(merged, d.protocols);
        assert dissectors[..i + 1][..i] == dissectors[..i];
        i := i + 1;
      }
      assert dissectors[..4] == dissectors;
      var a := new Extension[|exts|](k requires 0 <= k < |exts| => exts[k]);
      assert a[..] == exts;
      SortByPriority(a);
      extensions, extensionsMap, protocolsMap := a[..], byName, merged;
    }
  }

  /** A message `FilterItems` drops: outgoing traffic to a service IP. */
  predicate Dropped(item: OutputChannelItem, isServiceIP: string -> bool)
  {
    item.connectionInfo.isOutgoing && isServiceIP(item.connectionInfo.serverIP)
  }

  /** The messages that pass the filter, in arrival order. */
  function Kept(items: seq<OutputChannelItem>, isServiceIP: string -> bool): seq<OutputChannelItem>
  {
    if items == [] then []
    else Kept(items[..|items| - 1], isServiceIP) +
         (if Dropped(items[|items| - 1], isServiceIP) then [] else [items[|items| - 1]])
  }

  /** Filtering a stream piece by piece gives the filtering of the whole stream. */
  lemma {:induction false} KeptConcat(s: seq<OutputChannelItem>, t: seq<OutputChannelItem>, isServiceIP: string -> bool)
    ensures Kept(s + t, isServiceIP) == Kept(s, isServiceIP) + Kept(t, isServiceIP)
    decreases |t|
  {
    if t == [] {
      assert s + t == s;
    } else {
      assert (s + t)[..|s + t| - 1] == s + t[..|t| - 1];
      assert (s + t)[|s + t| - 1] == t[|t| - 1];
      KeptConcat(s, t[..|t| - 1], isServiceIP);
    }
  }

  /** A message is forwarded iff it arrived and is not outgoing to a service IP. */
  lemma {:induction false} KeptMembers(items: seq<OutputChannelItem>, isServiceIP: string -> bool, m: OutputChannelItem)
    ensures m in Kept(items, isServiceIP) <==> m in items && !Dropped(m, isServiceIP)
  {
    if items != [] {
      var init := items[..|items| - 1];
      KeptMembers(init, isServiceIP, m);
      assert items == init + [items[|items| - 1]];
    }
  }

  /**
   * `FilterItems`: forward every message of the input channel to the output channel,
   * except outgoing messages to a service IP. `isServiceIP` is `api.CheckIsServiceIP`.
   */
  method FilterItems(inChannel: seq<OutputChannelItem>, isServiceIP: string -> bool)
    returns (outChannel: seq<OutputChannelItem>)
    ensures outChannel == Kept(inChannel, isServiceIP)
    ensures |outChannel| <= |inChannel|
  {
    outChannel := [];
    var i := 0;
    while i < |inChannel|
      invariant 0 <= i <= |inChannel|
      invariant outChannel == Kept(inChannel[..i], isServiceIP)
      invariant |outChannel| <= i
    {
      var message := inChannel[i];
      assert inChannel[..i + 1][..i] == inChannel[..i];
      i := i + 1;
      if message.connectionInfo.isOutgoing && isServiceIP(message.connectionInfo.serverIP) {
        continue;
      }
      outChannel := outChannel + [message];
    }
    assert inChannel[..i] == inChannel;
  }
}

=== FILE: base_api.dfy ===
/**
 * The records the gateway receives from the capture library and the store client,
 * and the library's per-protocol operations. Only the fields the gateway reads are kept.
 * Raw byte slices are read as text: Go's `string(b)` conversion is the identity here.
 */
module BaseApi {
  import opened Wrappers

  type Bytes = string

  /** The protocol an extension registers: name, version, abbreviation and priority. */
  datatype Protocol = Protocol(name: string, version: string, abbreviation: string, priority: int)

  /** The protocol fields an entry carries; `ToString` of it is the key of the protocols map. */
  datatype ProtocolSummary = ProtocolSummary(name: string, version: string, abbreviation: string)

  /** One captured transaction, as decoded from the store. Payloads stay opaque. */
  datatype Entry = Entry(
    id: string,
    protocol: ProtocolSummary,
    source: string,
    destination: string,
    request: Bytes,
    response: Bytes,
    startTime: int,
    elapsedTime: int)

  /** The store's metadata record; `leftOff` is the opaque resume cursor. */
  datatype Metadata = Metadata(leftOff: string, current: int, total: int)

  /** The summary a dissector computes for an entry (its fields are the dissector's business). */
  datatype BaseEntry = BaseEntry(summary: string)

  /** What the gateway returns for one entry. */
  datatype EntryWrapper = EntryWrapper(protocol: Protocol, representation: string, data: Entry, base: BaseEntry)

  /**
   * A protocol dissector as the gateway sees it: the protocol its `Register` writes into
   * its extension, and the map its `GetProtocols` returns.
   */
  datatype Dissector = Dissector(tag: string, registers: Protocol, protocols: map<string, Protocol>)

  /** An extension: a registered protocol together with the dissector that handles it. */
  datatype Extension = Extension(protocol: Protocol, dissector: Dissector)

  datatype ConnectionInfo = ConnectionInfo(
    clientIP: string, clientPort: string, serverIP: string, serverPort: string, isOutgoing: bool)

  /** The two sides of a captured pair: an HTTP request or response, or raw bytes of another protocol. */
  datatype Payload = HttpRequest(verb: string, url: string, body: string, headers: seq<(string, string)>)
                   | HttpResponse(status: int, body: string)
                   | Raw(bytes: Bytes)

  datatype GenericMessage = GenericMessage(isRequest: bool, captureTime: int, captureSize: int, payload: Payload)

  /** A capture item waiting to be dissected and stored. */
  datatype OutputChannelItem = OutputChannelItem(
    protocol: Protocol,
    connectionInfo: ConnectionInfo,
    capture: string,
    timestamp: int,
    request: GenericMessage,
    response: GenericMessage)

  /**
   * The library functions the gateway calls but whose code is not part of this model:
   * `ToString` of a protocol summary, and a dissector's `Summarize`, `Represent` and `Analyze`.
   */
  datatype Library = Library(
    protocolKey: ProtocolSummary -> string,
    summarize: (Dissector, Entry) -> BaseEntry,
    represent: (Dissector, Bytes, Bytes) -> Result<Bytes>,
    analyze: (Dissector, OutputChannelItem) -> Entry)
}

=== FILE: entries_provider.dfy ===
/**
 * The entries provider: page and single-entry queries against the store, turning each stored
 * row into an entry wrapper through the protocols map and the extensions map of the registry.
 */
module EntriesProvider {
  import opened Wrappers
  import opened BaseApi

  /** The registry maps the provider reads (`ProtocolsMap` and `ExtensionsMap`). */
  datatype Maps = Maps(protocols: map<string, Protocol>, extensions: map<string, Extension>)

  /** The paging parameters of `GetEntries`, handed to the store as they are. */
  datatype EntriesRequest = EntriesRequest(leftOff: string, direction: int, query: string, limit: int, timeoutMs: int)

  /** The store's answer to a page fetch: an error, or the rows and the last metadata record. */
  datatype FetchReply = FetchFailed(error: string) | Fetched(rows: seq<Bytes>, lastMeta: Bytes)

  /** The page the provider returns: the wrappers and, if it decoded, the last metadata. */
  datatype Page = Page(wrappers: seq<EntryWrapper>, metadata: Option<Metadata>)

  /**
   * Find the protocol of an entry by the key of its protocol summary, then the extension of
   * that protocol's name. A missing protocol is reported through the nil pointer the map
   * lookup returned, which prints as `<nil>`.
   */
  function Resolve(entry: Entry, maps: Maps, lib: Library): (r: Result<Extension>)
    ensures r.Success? <==>
              lib.protocolKey(entry.protocol) in maps.protocols &&
              maps.protocols[lib.protocolKey(entry.protocol)].name in maps.extensions
    ensures lib.protocolKey(entry.protocol) !in maps.protocols ==>
              r == Failure("protocol not found, protocol: <nil>")
    ensures lib.protocolKey(entry.protocol) in maps.protocols && r.Failure? ==>
              r == Failure("extension not found, extension: " + maps.protocols[lib.protocolKey(entry.protocol)].name)
    ensures r.Success? ==>
              r.value == maps.extensions[maps.protocols[lib.protocolKey(entry.protocol)].name]
  {
    var key := lib.protocolKey(entry.protocol);
    if key !in maps.protocols then Failure("protocol not found, protocol: <nil>")
    else
      var protocol := maps.protocols[key];
      if protocol.name !in maps.extensions then Failure("extension not found, extension: " + protocol.name)
      else Success(maps.extensions[protocol.name])
  }

  /** One row of a page: decode, resolve, summarize; the representation is left empty. */
  function WrapRow(row: Bytes, maps: Maps, decode: Bytes -> Result<Entry>, lib: Library): (r: Result<EntryWrapper>)
    ensures decode(row).Failure? ==> r == Failure(decode(row).error)
    ensures decode(row).Success? ==>
              (r.Success? <==> Resolve(decode(row).value, maps, lib).Success?)
    ensures decode(row).Success? && Resolve(decode(row).value, maps, lib).Failure? ==>
              r == Failure(Resolve(decode(row).value, maps, lib).error)
    ensures r.Success? ==>
              decode(row).Success? &&
              r.value.data == decode(row).value &&
              r.value.protocol == maps.protocols[lib.protocolKey(decode(row).value.protocol)] &&
              r.value.representation == "" &&
              r.value.base == lib.summarize(Resolve(decode(row).value, maps, lib).value.dissector, decode(row).value)
  {
    match decode(row)
    case Failure(e) => Failure(e)
    case Success(entry) =>
      match Resolve(entry, maps, lib)
      case Failure(e) => Failure(e)
      case Success(extension) =>
        var protocol := maps.protocols[lib.protocolKey(entry.protocol)];
        Success(EntryWrapper(protocol, "", entry, lib.summarize(extension.dissector, entry)))
  }

  /**
   * `GetEntries`: fetch one page and wrap every row in order; the first row that fails to
   * decode or resolve fails the whole page. A last metadata record that does not decode is
   * only logged: the page is still returned, without metadata.
   */
  method GetEntries(request: EntriesRequest, store: EntriesRequest -> FetchReply,
                    decodeEntry: Bytes -> Result<Entry>, decodeMetadata: Bytes -> Result<Metadata>,
                    maps: Maps, lib: Library)
    returns (r: Result<Page>)
    ensures store(request).FetchFailed? ==> r == Failure(store(request).error)
    ensures r.Success? ==>
              store(request).Fetched? &&
              |r.value.wrappers| == |store(request).rows| &&
              (forall i :: 0 <= i < |store(request).rows| ==>
                 WrapRow(store(request).rows[i], maps, decodeEntry, lib) == Success(r.value.wrappers[i])) &&
              r.value.metadata == ToOption(decodeMetadata(store(request).lastMeta))
    ensures store(request).Fetched? && r.Failure? ==>
              exists k :: 0 <= k < |store(request).rows| &&
                WrapRow(store(request).rows[k], maps, decodeEntry, lib).Failure? &&
                r.error == WrapRow(store(request).rows[k], maps, decodeEntry, lib).error &&
                forall i :: 0 <= i < k ==> WrapRow(store(request).rows[i], maps, decodeEntry, lib).Success?
    ensures store(request).Fetched? ==>
              (r.Success? <==>
                 forall i :: 0 <= i < |store(request).rows| ==>
                   WrapRow(store(request).rows[i], maps, decodeEntry, lib).Success?)
  {
    var reply := store(request);
    if reply.FetchFailed? {
      return Failure(reply.error);
    }
    var data := reply.rows;
    var dataSlice: seq<EntryWrapper> := [];
    var i := 0;
    while i < |data|
      invariant 0 <= i <= |data| && |dataSlice| == i
      invariant forall j :: 0 <= j < i ==> WrapRow(data[j], maps, decodeEntry, lib) == Success(dataSlice[j])
    {
      var entry := decodeEntry(data[i]);
      if entry.Failure? {
        return Failure(entry.error);
      }
      var extension := Resolve(entry.value, maps, lib);
      if extension.Failure? {
        return Failure(extension.error);
      }
      var protocol := maps.protocols[lib.protocolKey(entry.value.protocol)];
      var base := lib.summarize(extension.value.dissector, entry.value);
      dataSlice := dataSlice + [EntryWrapper(protocol, "", entry.value, base)];
      i := i + 1;
    }
    var metadata := ToOption(decodeMetadata(reply.lastMeta));
    r := Success(Page(dataSlice, metadata));
  }

  /**
   * `GetEntry`: look one entry up by id, wrap it as a page row would be, and add its
   * representation. A row that does not decode is reported by its raw text.
   */
  function GetEntry(entryId: string, query: string, single: (string, string) -> Result<Bytes>,
                    maps: Maps, decode: Bytes -> Result<Entry>, lib: Library): (r: Result<EntryWrapper>)
    ensures single(entryId, query).Failure? ==> r == Failure(single(entryId, query).error)
    ensures single(entryId, query).Success? && decode(single(entryId, query).value).Failure? ==>
              r == Failure(single(entryId, query).value)
    ensures single(entryId, query).Success? && decode(single(entryId, query).value).Success? &&
            WrapRow(single(entryId, query).value, maps, decode, lib).Failure? ==>
              r == Failure(WrapRow(single(entryId, query).value, maps, decode, lib).error)
    ensures single(entryId, query).Success? && WrapRow(single(entryId, query).value, maps, decode, lib).Success? &&
            lib.represent(Resolve(decode(single(entryId, query).value).value, maps, lib).value.dissector,
                          decode(single(entryId, query).value).value.request,
                          decode(single(entryId, query).value).value.response).Failure? ==>
              r == Failure(lib.represent(Resolve(decode(single(entryId, query).value).value, maps, lib).value.dissector,
                                         decode(single(entryId, query).value).value.request,
                                         decode(single(entryId, query).value).value.response).error)
    ensures r.Success? <==>
              single(entryId, query).Success? &&
              WrapRow(single(entryId, query).value, maps, decode, lib).Success? &&
              lib.represent(Resolve(decode(single(entryId, query).value).value, maps, lib).value.dissector,
                            decode(single(entryId, query).value).value.request,
                            decode(single(entryId, query).value).value.response).Success?
    ensures r.Success? ==>
              r.value.data == WrapRow(single(entryId, query).value, maps, decode, lib).value.data &&
              r.value.protocol == WrapRow(single(entryId, query).value, maps, decode, lib).value.protocol &&
              r.value.base == WrapRow(single(entryId, query).value, maps, decode, lib).value.base &&
              r.value.representation ==
                lib.represent(Resolve(r.value.data, maps, lib).value.dissector,
                              r.value.data.request, r.value.data.response).value
  {
    match single(entryId, query)
    case Failure(e) => Failure(e)
    case Success(bytes) =>
      if decode(bytes).Failure? then Failure(bytes)
      else
        var entry := decode(bytes).value;
        match Resolve(entry, maps, lib)
        case Failure(e) => Failure(e)
        case Success(extension) =>
          var protocol := maps.protocols[lib.protocolKey(entry.protocol)];
          var base := lib.summarize(extension.dissector, entry);
          match lib.represent(extension.dissector, entry.request, entry.response)
          case Failure(e) => Failure(e)
          case Success(representation) => Success(EntryWrapper(protocol, representation, entry, base))
  }
}

=== FILE: oas_generator.dfy ===
/**
 * The OpenAPI generator's state: a started flag, and one spec generator per destination
 * service, created on the first http entry seen for that destination and dropped on stop.
 */
module OasGenerator {
  import opened Wrappers
  import opened BaseApi

  /** A per-service spec generator: the base URL it was created for and its example length limit. */
  datatype SpecGen = SpecGen(baseUrl: string, maxExampleLen: int)

  /** How `getGen` ends: with a generator, or with the nil-pointer panic of reading the scheme of an unparsed URL. */
  datatype GenExit = Gen(gen: SpecGen) | Panicked

  /**
   * The generator `getGen` yields for `dest` and the spec map afterwards. `scheme` is what
   * parsing the request URL gave: its scheme, or the parse error.
   */
  function GenFor(specs: map<string, SpecGen>, dest: string, scheme: Result<string>, maxExampleLen: int)
    : (r: (GenExit, map<string, SpecGen>))
    ensures dest in specs ==> r == (Gen(specs[dest]), specs)
    ensures dest !in specs && scheme.Failure? ==> r.0.Panicked? && r.1 == specs
    ensures dest !in specs && scheme.Success? ==>
              r.0 == Gen(SpecGen(scheme.value + "://" + dest, maxExampleLen)) &&
              r.1.Keys == specs.Keys + {dest} && r.1[dest] == r.0.gen &&
              forall d :: d in specs ==> r.1[d] == specs[d]
  {
    if dest in specs then (Gen(specs[dest]), specs)
    else if scheme.Failure? then (Panicked, specs)
    else
      var gen := SpecGen(scheme.value + "://" + dest, maxExampleLen);
      (Gen(gen), specs[dest := gen])
  }

  /** A second look-up of the same destination finds the generator the first one made, whatever the URL. */
  lemma GenForStable(specs: map<string, SpecGen>, dest: string, scheme: Result<string>, scheme2: Result<string>, maxExampleLen: int)
    requires GenFor(specs, dest, scheme, maxExampleLen).0.Gen?
    ensures GenFor(GenFor(specs, dest, scheme, maxExampleLen).1, dest, scheme2, maxExampleLen) ==
            (GenFor(specs, dest, scheme, maxExampleLen).0, GenFor(specs, dest, scheme, maxExampleLen).1)
  {
    var after := GenFor(specs, dest, scheme, maxExampleLen).1;
    assert dest in after;
  }

  /** Whether `HandleEntry` hands the entry on to a spec generator, given the outcome of its HAR conversion. */
  predicate Handled(started: bool, entry: Entry, harUrl: Result<string>)
  {
    started && entry.protocol.name == "http" && entry.destination != "" && harUrl.Success?
  }

  class OasGenerator {
    var started: bool
    var serviceSpecs: map<string, SpecGen>
    const maxExampleLen: int

    /** `NewDefaultOasGenerator`: stopped, with no spec generators. */
    constructor (maxExampleLen: int)
      ensures !started && serviceSpecs == map[] && this.maxExampleLen == maxExampleLen
    {
      started := false;
      serviceSpecs := map[];
      this.maxExampleLen := maxExampleLen;
    }

    method Start()
      modifies this
      ensures started && serviceSpecs == old(serviceSpecs)
    {
      started := true;
    }

    /** `Stop`: a stopped generator is left alone; a started one stops and forgets every spec. */
    method Stop()
      modifies this
      ensures !started
      ensures !old(started) ==> serviceSpecs == old(serviceSpecs)
      ensures old(started) ==> serviceSpecs == map[]
    {
      if !started {
        return;
      }
      started := false;
      Reset();
    }

    method Reset()
      modifies this
      ensures serviceSpecs == map[] && started == old(started)
    {
      serviceSpecs := map[];
    }

    /** `IsStarted`: the started flag. */
    function IsStarted(): bool
      reads this
    {
      started
    }

    /** The current spec map (a copy: the shared, concurrently updated map of the source is not modelled). */
    function GetServiceSpecs(): map<string, SpecGen>
      reads this
    {
      serviceSpecs
    }

    /** `getGen`: the stored generator of `dest`, or a new one stored under `dest`. */
    method GetGen(dest: string, scheme: Result<string>) returns (exit: GenExit)
      modifies this
      ensures (exit, serviceSpecs) == GenFor(old(serviceSpecs), dest, scheme, maxExampleLen)
      ensures started == old(started)
    {
      var found := dest in serviceSpecs;
      if !found {
        if scheme.Failure? {
          return Panicked;
        }
        var gen := SpecGen(scheme.value + "://" + dest, maxExampleLen);
        serviceSpecs := serviceSpecs[dest := gen];
        exit := Gen(gen);
      } else {
        exit := Gen(serviceSpecs[dest]);
      }
    }

    /**
     * `HandleEntry`: ignore the entry unless the generator is started, the entry is http, its
     * destination is resolved and it converts to HAR; then fetch or create the destination's
     * generator. `harUrl` is the request URL of the HAR conversion (or its error) and
     * `parseScheme` parses a URL into its scheme; feeding the entry to the generator is not
     * part of this model.
     */
    method HandleEntry(entry: Entry, harUrl: Result<string>, parseScheme: string -> Result<string>)
      returns (exit: Option<GenExit>)
      modifies this
      ensures started == old(started)
      ensures !Handled(old(started), entry, harUrl) ==> exit.None? && serviceSpecs == old(serviceSpecs)
      ensures Handled(old(started), entry, harUrl) ==>
                exit.Some? &&
                (exit.value, serviceSpecs) ==
                  GenFor(old(serviceSpecs), entry.destination, parseScheme(harUrl.value), maxExampleLen)
    {
      exit := None;
      if !started {
        return;
      }
      if entry.protocol.name == "http" {
        var dest := entry.destination;
        if dest == "" {
          return;
        }
        if harUrl.Failure? {
          return;
        }
        var gen := GetGen(dest, parseScheme(harUrl.value));
        exit := Some(gen);
      }
    }
  }

  /** Starting a generator and stopping it again leaves it stopped and without spec generators, whatever it held. */
  method StartThenStop(g: OasGenerator)
    modifies g
    ensures !g.IsStarted() && g.GetServiceSpecs() == map[]
  {
    g.Start();
    g.Stop();
  }

  /** `GetDefaultOasGeneratorInstance`: one generator per process, configured by the first call. */
  class OasHolder {
    var instance: OasGenerator?

    constructor ()
      ensures instance == null
    {
      instance := null;
    }

    method GetDefaultOasGeneratorInstance(maxExampleLen: int) returns (g: OasGenerator)
      modifies this
      ensures instance == g
      ensures old(instance) != null ==> g == old(instance)
      ensures old(instance) == null ==>
                fresh(g) && !g.started && g.serviceSpecs == map[] && g.maxExampleLen == maxExampleLen
    {
      if instance == null {
        instance := new OasGenerator(maxExampleLen);
      }
      g := instance;
    }
  }
}

=== FILE: replay.dfy ===
/**
 * Request replay: re-send a captured HTTP request, at most five at a time, and dissect the
 * live response with the http extension into an entry wrapper.
 */
module Replay {
  import opened Wrappers
  import opened BaseApi
  import App

  /** How many replays may be in flight at once. */
  const MaxParallelAction := 5

  /** What the client asks to replay. `verb` is the request method. */
  datatype Details = Details(verb: string, url: string, body: string, headers: map<string, string>)

  /** The reply of a replay: a success flag, the wrapped entry on success, and an error message otherwise. */
  datatype Response = Response(success: bool, data: Option<EntryWrapper>, errorMessage: string)

  /** How a replay ends: with a response, or with a nil-pointer panic inside the handler. */
  datatype Exit = Returned(response: Response) | Panicked

  /**
   * The outside world of one replay: request construction, the identifier of the request, the
   * HTTP client, the two clock readings, the JSON round trips of the capture item and of the
   * entry, and the dissector library.
   */
  datatype Env = Env(
    newRequest: (string, string) -> Outcome,
    requestId: string,
    send: Payload -> Result<Payload>,
    captureTime: int,
    timestamp: int,
    itemRoundTrip: OutputChannelItem -> Result<OutputChannelItem>,
    entryRoundTrip: Entry -> Result<Entry>,
    lib: Library)

  /** The header that marks a request as a replay. */
  const ReplayHeader := "x-kubeshark"

  /** The failure response: not successful, no data, the error's message. */
  function Failed(error: string): Response
  {
    Response(false, None, error)
  }

  predicate IsLower(c: char)
  {
    'a' <= c <= 'z'
  }

  /** Upper-case an ASCII string, leaving every other character as it is. */
  function ToUpper(s: string): (r: string)
    ensures |r| == |s|
    ensures forall i :: 0 <= i < |s| ==> !IsLower(r[i])
    ensures forall i :: 0 <= i < |s| && !IsLower(s[i]) ==> r[i] == s[i]
    ensures forall i :: 0 <= i < |s| && IsLower(s[i]) ==> r[i] == (s[i] as int - 32) as char
  {
    if s == [] then []
    else
      var c := s[|s| - 1];
      ToUpper(s[..|s| - 1]) + [if IsLower(c) then (c as int - 32) as char else c]
  }

  /** Upper-casing twice is upper-casing once. */
  lemma {:induction false} ToUpperIdempotent(s: string)
    ensures ToUpper(ToUpper(s)) == ToUpper(s)
  {
    if s != [] {
      var u := ToUpper(s);
      assert ToUpper(u) == ToUpper(u[..|u| - 1]) + [u[|u| - 1]];
      assert u[..|u| - 1] == ToUpper(s[..|s| - 1]);
      ToUpperIdempotent(s[..|s| - 1]);
    }
  }

  /** `added` lists every pair of `headers` exactly once, in some order. */
  ghost predicate Lists(added: seq<(string, string)>, headers: map<string, string>)
  {
    |added| == |headers| &&
    forall p :: p in added <==> p.0 in headers && headers[p.0] == p.1
  }

  /**
   * Add every header of the map to the request, in the map's (unspecified) iteration order.
   * The key canonicalization of Go's header type is not part of this model.
   */
  method AddHeaders(headers: map<string, string>) returns (added: seq<(string, string)>)
    ensures Lists(added, headers)
  {
    added := [];
    var todo := headers.Keys;
    while todo != {}
      invariant todo <= headers.Keys
      invariant |added| + |todo| == |headers|
      invariant forall p :: p in added <==> p.0 in headers.Keys - todo && headers[p.0] == p.1
      decreases todo
    {
      var key :| key in todo;
      added := added + [(key, headers[key])];
      todo := todo - {key};
    }
    assert headers.Keys - todo == headers.Keys;
  }

  /** The request the client sends: upper-cased method, the added headers, then the replay marker. */
  function SentRequest(details: Details, added: seq<(string, string)>, requestId: string): (r: Payload)
    ensures r.HttpRequest? && r.url == details.url && r.body == details.body
    ensures r.verb == ToUpper(details.verb) && ToUpper(r.verb) == r.verb
    ensures |r.headers| == |added| + 1
    ensures r.headers[..|added|] == added && r.headers[|added|] == (ReplayHeader, requestId)
  {
    ToUpperIdempotent(details.verb);
    HttpRequest(ToUpper(details.verb), details.url, details.body, added + [(ReplayHeader, requestId)])
  }

  /** The capture item built around the live request and response: loop-back addresses, nothing captured. */
  function ReplayItem(extension: Extension, request: Payload, response: Payload, captureTime: int, timestamp: int)
    : (item: OutputChannelItem)
    ensures item.protocol == extension.protocol
    ensures item.request.isRequest && item.request.payload == request && item.request.captureSize == 0
    ensures !item.response.isRequest && item.response.payload == response && item.response.captureSize == 0
    ensures item.request.captureTime == captureTime == item.response.captureTime
    ensures item.connectionInfo == ConnectionInfo("", "1", "", "1", false) && item.capture == ""
    ensures forall isServiceIP :: !App.Dropped(item, isServiceIP)
  {
    OutputChannelItem(
      extension.protocol,
      ConnectionInfo("", "1", "", "1", false),
      "",
      timestamp,
      GenericMessage(true, captureTime, 0, request),
      GenericMessage(false, captureTime, 0, response))
  }

  /**
   * `getEntryFromRequestResponse`: pass the item through JSON and let the dissector analyze it;
   * `None` is the nil entry returned when the round trip fails.
   */
  function EntryFromRequestResponse(extension: Extension, request: Payload, response: Payload, env: Env)
    : (r: Option<Entry>)
    ensures r.Some? <==>
              env.itemRoundTrip(ReplayItem(extension, request, response, env.captureTime, env.timestamp)).Success?
    ensures r.Some? ==>
              r.value == env.lib.analyze(extension.dissector,
                           env.itemRoundTrip(ReplayItem(extension, request, response, env.captureTime, env.timestamp)).value)
  {
    var item := ReplayItem(extension, request, response, env.captureTime, env.timestamp);
    match env.itemRoundTrip(item)
    case Failure(_) => None
    case Success(finalItem) => Some(env.lib.analyze(extension.dissector, finalItem))
  }

  /**
   * The replay of an admitted request whose headers were added in the order `added`. A missing
   * http extension, or a nil entry (which stays nil through its JSON round trip), panics.
   */
  function Replayed(details: Details, added: seq<(string, string)>, extensions: map<string, Extension>, env: Env)
    : (exit: Exit)
    ensures env.newRequest(ToUpper(details.verb), details.url).Fail? ==>
              exit == Returned(Failed(env.newRequest(ToUpper(details.verb), details.url).error))
    ensures env.newRequest(ToUpper(details.verb), details.url).Pass? &&
            env.send(SentRequest(details, added, env.requestId)).Failure? ==>
              exit == Returned(Failed(env.send(SentRequest(details, added, env.requestId)).error))
    ensures exit.Panicked? <==>
              env.newRequest(ToUpper(details.verb), details.url).Pass? &&
              env.send(SentRequest(details, added, env.requestId)).Success? &&
              ("http" !in extensions ||
               EntryFromRequestResponse(extensions["http"], SentRequest(details, added, env.requestId),
                                        env.send(SentRequest(details, added, env.requestId)).value, env).None?)
    ensures exit.Returned? ==> (exit.response.success <==> exit.response.data.Some?)
    ensures exit.Returned? && exit.response.success ==>
              exit.response.errorMessage == "" &&
              exit.response.data.value.protocol == extensions["http"].protocol &&
              env.lib.represent(extensions["http"].dissector,
                                exit.response.data.value.data.request, exit.response.data.value.data.response) ==
                Success(exit.response.data.value.representation)
    // Once the live response is analyzed into an entry: the entry's JSON round trip, then its
    // representation, each fail the replay with their own error; otherwise the wrapper holds the
    // round-tripped entry, its representation and the summary of the analyzed entry.
    ensures var request := SentRequest(details, added, env.requestId);
            env.newRequest(ToUpper(details.verb), details.url).Pass? && env.send(request).Success? &&
            "http" in extensions &&
            EntryFromRequestResponse(extensions["http"], request, env.send(request).value, env).Some? ==>
              (var extension := extensions["http"];
               var entry := EntryFromRequestResponse(extension, request, env.send(request).value, env).value;
               (env.entryRoundTrip(entry).Failure? ==> exit == Returned(Failed(env.entryRoundTrip(entry).error))) &&
               (env.entryRoundTrip(entry).Success? ==>
                  (var unmarshalled := env.entryRoundTrip(entry).value;
                   var rep := env.lib.represent(extension.dissector, unmarshalled.request, unmarshalled.response);
                   (rep.Failure? ==> exit == Returned(Failed(rep.error))) &&
                   (rep.Success? ==>
                      exit == Returned(Response(true, Some(EntryWrapper(extension.protocol, rep.value, unmarshalled,
                                                                        env.lib.summarize(extension.dissector, entry))), ""))))))
  {
    var verb := ToUpper(details.verb);
    match env.newRequest(verb, details.url)
    case Fail(e) => Returned(Failed(e))
    case Pass =>
      var request := SentRequest(details, added, env.requestId);
      match env.send(request)
      case Failure(e) => Returned(Failed(e))
      case Success(response) =>
        if "http" !in extensions then Panicked
        else
          var extension := extensions["http"];
          match EntryFromRequestResponse(extension, request, response, env)
          case None => Panicked
          case Some(entry) =>
            var base := env.lib.summarize(extension.dissector, entry);
            match env.entryRoundTrip(entry)
            case Failure(e) => Returned(Failed(e))
            case Success(entryUnmarshalled) =>
              match env.lib.represent(extension.dissector, entryUnmarshalled.request, entryUnmarshalled.response)
              case Failure(e) => Returned(Failed(e))
              case Success(representation) =>
                Returned(Response(true, Some(EntryWrapper(extension.protocol, representation, entryUnmarshalled, base)), ""))
  }

  predicate IsDigit(c: char)
  {
    '0' <= c <= '9'
  }

  /** `%d` of a non-negative integer: its decimal digits, most significant first, without leading zeros. */
  function Decimal(n: nat): (s: string)
    ensures |s| >= 1 && forall i :: 0 <= i < |s| ==> IsDigit(s[i])
    ensures s[0] == '0' ==> n == 0
    decreases n
  {
    var digit := ('0' as int + n % 10) as char;
    if n < 10 then [digit] else Decimal(n / 10) + [digit]
  }

  /** The number a string of decimal digits denotes. */
  function DigitsValue(s: string): nat
    requires forall i :: 0 <= i < |s| ==> IsDigit(s[i])
  {
    if s == [] then 0
    else
      assert IsDigit(s[|s| - 1]);
      DigitsValue(s[..|s| - 1]) * 10 + (s[|s| - 1] as int - '0' as int)
  }

  /** Reading back the decimal text of `n` gives `n`. */
  lemma {:induction false} DecimalRoundTrip(n: nat)
    ensures DigitsValue(Decimal(n)) == n
    decreases n
  {
    if n >= 10 {
      var s := Decimal(n);
      assert s[..|s| - 1] == Decimal(n / 10);
      DecimalRoundTrip(n / 10);
    }
  }

  /** The message of a replay refused because the limit is reached, with the limit written by `%d`. */
  function ThresholdMessage(): (m: string)
    ensures m == "reached threshold of 5 requests"
  {
    "reached threshold of " + Decimal(MaxParallelAction) + " requests"
  }

  /** The process-wide count of replays in flight (the mutex around it is not modelled). */
  class Counter {
    var inProcessRequests: int

    ghost predicate Valid()
      reads this
    {
      0 <= inProcessRequests <= MaxParallelAction
    }

    constructor ()
      ensures Valid() && inProcessRequests == 0
    {
      inProcessRequests := 0;
    }

    /** `incrementCounter`: admit a replay iff fewer than five are in flight, counting it. */
    method IncrementCounter() returns (result: bool)
      modifies this
      ensures result <==> old(inProcessRequests) < MaxParallelAction
      ensures inProcessRequests == if result then old(inProcessRequests) + 1 else old(inProcessRequests)
      ensures old(Valid()) ==> Valid()
    {
      result := false;
      if inProcessRequests < MaxParallelAction {
        inProcessRequests := inProcessRequests + 1;
        result := true;
      }
    }

    /** `decrementCounter`: a replay has finished. */
    method DecrementCounter()
      modifies this
      ensures inProcessRequests == old(inProcessRequests) - 1
      ensures old(Valid()) && old(inProcessRequests) > 0 ==> Valid()
    {
      inProcessRequests := inProcessRequests - 1;
    }

    /**
     * `ExecuteRequest`: refuse when five replays are in flight; otherwise replay, and release the
     * slot on every exit (the deferred decrement also runs while a panic unwinds).
     * `added` is the order in which the headers were added, `built` tells whether a request was
     * constructed, and `sent` is the request handed to the HTTP client, if any.
     */
    method ExecuteRequest(details: Details, extensions: map<string, Extension>, env: Env)
      returns (exit: Exit, added: seq<(string, string)>, built: bool, sent: Option<Payload>)
      requires Valid()
      modifies this
      ensures Valid() && inProcessRequests == old(inProcessRequests)
      ensures built <==> old(inProcessRequests) < MaxParallelAction
      ensures sent.Some? <==>
                old(inProcessRequests) < MaxParallelAction && env.newRequest(ToUpper(details.verb), details.url).Pass?
      ensures sent.Some? ==> sent.value == SentRequest(details, added, env.requestId)
      ensures old(inProcessRequests) >= MaxParallelAction ==>
                exit == Returned(Response(false, None, "reached threshold of 5 requests")) && added == []
      ensures old(inProcessRequests) < MaxParallelAction ==>
                exit == Replayed(details, added, extensions, env)
      ensures old(inProcessRequests) < MaxParallelAction && env.newRequest(ToUpper(details.verb), details.url).Pass? ==>
                Lists(added, details.headers)
    {
      added, built, sent := [], false, None;
      var admitted := IncrementCounter();
      if !admitted {
        exit := Returned(Failed(ThresholdMessage()));
        return;
      }
      var verb := ToUpper(details.verb);
      var made := env.newRequest(verb, details.url);
      built := true;
      if made.Fail? {
        exit := Returned(Failed(made.error));
      } else {
        added := AddHeaders(details.headers);
        sent := Some(SentRequest(details, added, env.requestId));
        exit := Replayed(details, added, extensions, env);
      }
      DecrementCounter();
    }
  }

  /** With five replays admitted and none finished, the sixth is refused and nothing is counted for it. */
  method SixthReplayRefused() returns (admitted: seq<bool>, count: int)
    ensures admitted == [true, true, true, true, true, false]
    ensures count == MaxParallelAction
  {
    var c := new Counter();
    admitted := [];
    var k := 0;
    while k < 6
      invariant 0 <= k <= 6
      invariant c.inProcessRequests == if k <= 5 then k else 5
      invariant admitted == seq(k, i => i < 5)
    {
      var ok := c.IncrementCounter();
      admitted := admitted + [ok];
      k := k + 1;
    }
    count := c.inProcessRequests;
  }
}

=== FILE: socket_data_inserter.dfy ===
/**
 * The insertion pipeline (`BasenineEntryInserter`): one process-wide instance holding at
 * most one connection to the store. `Insert` dials lazily, sends the serialized entry at
 * most once, and drops the connection when the send fails so that the next call re-dials.
 */
module SocketDataInserter {
  import opened Wrappers
  import opened BaseApi

  /** A handle on one link to the store. */
  datatype Connection = Connection(id: nat)

  /** How one round of `initializeConnection` went: the dial failed, insert mode failed, or both succeeded. */
  datatype Attempt = DialFailed(error: string) | ModeFailed(conn: Connection, error: string) | Ready(conn: Connection)

  /** A call the pipeline makes on the store client. */
  datatype StoreCall = Dial | InsertMode(conn: Connection) | CloseConnection(conn: Connection) | SendText(conn: Connection, text: Bytes)

  /** The calls one round makes: a connection whose insert mode failed is closed before the next round. */
  function AttemptCalls(a: Attempt): seq<StoreCall>
  {
    match a
    case DialFailed(_) => [Dial]
    case ModeFailed(c, _) => [Dial, InsertMode(c), CloseConnection(c)]
    case Ready(c) => [Dial, InsertMode(c)]
  }

  function RoundsCalls(rounds: seq<Attempt>): seq<StoreCall>
  {
    if rounds == [] then [] else RoundsCalls(rounds[..|rounds| - 1]) + AttemptCalls(rounds[|rounds| - 1])
  }

  predicate EventuallyReady(rounds: seq<Attempt>)
  {
    exists i :: 0 <= i < |rounds| && rounds[i].Ready?
  }

  /** The first round that both dialed and entered insert mode. */
  function FirstReady(rounds: seq<Attempt>): (i: nat)
    requires EventuallyReady(rounds)
    ensures i < |rounds| && rounds[i].Ready?
    ensures forall j :: 0 <= j < i ==> !rounds[j].Ready?
  {
    if rounds[0].Ready? then 0
    else
      assert EventuallyReady(rounds[1..]) by {
        var k :| 0 <= k < |rounds| && rounds[k].Ready?;
        assert rounds[1..][k - 1] == rounds[k];
      }
      1 + FirstReady(rounds[1..])
  }

  /** Every insert-mode call in `calls` is followed at once by closing that connection. */
  predicate ClosedAfterInsertMode(calls: seq<StoreCall>)
  {
    forall k :: 0 <= k < |calls| && calls[k].InsertMode? ==>
      k + 1 < |calls| && calls[k + 1] == CloseConnection(calls[k].conn)
  }

  /**
   * In the calls of rounds that all failed, every insert-mode call is followed at once by
   * closing that connection.
   */
  lemma {:induction false} FailedRoundsCloseEveryConnection(rounds: seq<Attempt>)
    requires forall i :: 0 <= i < |rounds| ==> !rounds[i].Ready?
    ensures ClosedAfterInsertMode(RoundsCalls(rounds))
  {
    if rounds != [] {
      var init := rounds[..|rounds| - 1];
      FailedRoundsCloseEveryConnection(init);
      var before, last := RoundsCalls(init), AttemptCalls(rounds[|rounds| - 1]);
      var all: seq<StoreCall> := before + last;
      assert RoundsCalls(rounds) == all;
      forall k | 0 <= k < |all| && all[k].InsertMode?
        ensures k + 1 < |all| && all[k + 1] == CloseConnection(all[k].conn)
      {
        if k < |before| {
          assert before[k] == all[k];
          assert before[k + 1] == all[k + 1];
        } else {
          var r := rounds[|rounds| - 1];
          assert last[k - |before|] == all[k];
          if r.ModeFailed? {
            assert last == [Dial, InsertMode(r.conn), CloseConnection(r.conn)];
            assert k - |before| == 1;
            assert all[k + 1] == last[2];
          }
        }
      }
    }
  }

  /** The calls of the dial rounds start with a dial and never send anything. */
  lemma {:induction false} RoundsCallsShape(rounds: seq<Attempt>)
    ensures RoundsCalls(rounds) != [] ==> RoundsCalls(rounds)[0] == Dial
    ensures forall c :: c in RoundsCalls(rounds) ==> !c.SendText?
  {
    if rounds != [] {
      RoundsCallsShape(rounds[..|rounds| - 1]);
    }
  }

  /**
   * `initializeConnection`: dial and switch to insert mode, round after round, until both
   * succeed. The rounds are given by the store in advance; the source retries without
   * bound and sleeps between rounds, so the model asks that some round succeeds.
   */
  method InitializeConnection(rounds: seq<Attempt>) returns (conn: Connection, used: nat, calls: seq<StoreCall>)
    requires EventuallyReady(rounds)
    ensures used == FirstReady(rounds) && rounds[used] == Ready(conn)
    ensures calls == RoundsCalls(rounds[..used]) + [Dial, InsertMode(conn)]
    ensures forall k :: 0 <= k < |calls| - 1 && calls[k].InsertMode? ==>
              calls[k + 1] == CloseConnection(calls[k].conn)
  {
    used := 0;
    calls := [];
    while true
      invariant used < |rounds|
      invariant forall i :: 0 <= i < used ==> !rounds[i].Ready?
      invariant exists i :: used <= i < |rounds| && rounds[i].Ready?
      invariant calls == RoundsCalls(rounds[..used])
      decreases |rounds| - used
    {
      if rounds[used].Ready? {
        conn := rounds[used].conn;
        break;
      }
      assert rounds[..used + 1][..used] == rounds[..used];
      calls := calls + AttemptCalls(rounds[used]);
      used := used + 1;
    }
    FailedRoundsCloseEveryConnection(rounds[..used]);
    calls := calls + [Dial, InsertMode(conn)];
  }

  /** At most one text is sent among `calls`. */
  predicate AtMostOneSend(calls: seq<StoreCall>)
  {
    forall k, l :: 0 <= k < l < |calls| && calls[k].SendText? ==> !calls[l].SendText?
  }

  /** The store's answers to one `Insert`: the dial rounds, and the outcome of the send. */
  datatype StoreAnswers = StoreAnswers(rounds: seq<Attempt>, send: Outcome)

  class EntryInserter {
    var connection: Option<Connection>

    constructor ()
      ensures connection == None
    {
      connection := None;
    }

    /**
     * `Insert`: establish a connection if there is none, serialize the entry, send it once;
     * on a failed send close the connection and forget it.
     */
    method Insert(entry: Entry, marshal: Entry -> Result<Bytes>, store: StoreAnswers)
      returns (err: Outcome, calls: seq<StoreCall>)
      requires connection.None? ==> EventuallyReady(store.rounds)
      modifies this
      ensures AtMostOneSend(calls)
      ensures old(connection).Some? ==> calls == [] || calls[0].SendText?
      ensures old(connection).None? ==> |calls| >= 2 && calls[0] == Dial
    ensures old(connection).None? ==>
              var ready := store.rounds[FirstReady(store.rounds)].conn;
              var dial := RoundsCalls(store.rounds[..FirstReady(store.rounds)]) + [Dial, InsertMode(ready)];
              |calls| >= |dial| && calls[..|dial|] == dial &&
              (marshal(entry).Success? ==> |calls| > |dial| && calls[|dial|] == SendText(ready, marshal(entry).value)) &&
              (marshal(entry).Failure? ==> calls == dial && connection == Some(ready))
      ensures marshal(entry).Failure? ==>
                err == Fail("error marshling entry, err: " + marshal(entry).error) &&
                (forall c :: c in calls ==> !c.SendText?) &&
                connection.Some? &&
                (old(connection).Some? ==> connection == old(connection) && calls == [])
      ensures marshal(entry).Success? && store.send.Pass? ==>
                err == Pass && connection.Some? && |calls| >= 1 &&
                calls[|calls| - 1] == SendText(connection.value, marshal(entry).value) &&
                (old(connection).Some? ==> connection == old(connection))
      ensures marshal(entry).Success? && store.send.Fail? ==>
                err == Fail("error sending text to database, err: " + store.send.error) &&
                connection.None? && |calls| >= 2 &&
                calls[|calls| - 2].SendText? && calls[|calls| - 2].text == marshal(entry).value &&
                calls[|calls| - 1] == CloseConnection(calls[|calls| - 2].conn)
      ensures old(connection).Some? && marshal(entry).Success? ==>
                |calls| >= 1 && calls[0] == SendText(old(connection).value, marshal(entry).value)
    {
      calls := [];
      if connection.None? {
        var conn, used, dialCalls := InitializeConnection(store.rounds);
        RoundsCallsShape(store.rounds[..used]);
        connection := Some(conn);
        calls := dialCalls;
      }
      ghost var dialed := calls;
      assert forall c :: c in dialed ==> !c.SendText?;
      var data := marshal(entry);
      if data.Failure? {
        err := Fail("error marshling entry, err: " + data.error);
        return;
      }
      var c := connection.value;
      calls := calls + [SendText(c, data.value)];
      if store.send.Fail? {
        calls := calls + [CloseConnection(c)];
        connection := None;
        err := Fail("error sending text to database, err: " + store.send.error);
        return;
      }
      err := Pass;
    }
  }

  /** `GetBasenineEntryInserterInstance`: a once-initialised holder of the single inserter. */
  class InserterHolder {
    var instance: EntryInserter?

    constructor ()
      ensures instance == null
    {
      instance := null;
    }

    method GetInstance() returns (e: EntryInserter)
      modifies this
      ensures instance == e
      ensures old(instance) != null ==> e == old(instance)
      ensures old(instance) == null ==> fresh(e) && e.connection.None?
    {
      if instance == null {
        instance := new EntryInserter();
      }
      e := instance;
    }
  }

  /**
   * After a failed send, the next `Insert` on the same instance dials a new connection
   * instead of reusing the broken one.
   */
  method ReDialAfterSendFailure(e: EntryInserter, first: Entry, second: Entry, marshal: Entry -> Result<Bytes>,
                                a: StoreAnswers, b: StoreAnswers)
    returns (calls: seq<StoreCall>)
    requires e.connection.None? ==> EventuallyReady(a.rounds)
    requires EventuallyReady(b.rounds)
    requires marshal(first).Success? && a.send.Fail?
    modifies e
    ensures |calls| >= 2 && calls[0] == Dial
    ensures e.connection.Some? == (marshal(second).Failure? || b.send.Pass?)
  {
    var err1, calls1 := e.Insert(first, marshal, a);
    var err2;
    err2, calls := e.Insert(second, marshal, b);
  }
}

=== FILE: socket_data_streamer.dfy ===
/**
 * The per-subscriber stream controller (`BasenineEntryStreamer`): dial, validate the query,
 * optionally replay a bounded batch of history oldest first, then open the live query.
 *
 * Every store call and every call on the subscriber's socket is recorded, in order, in a
 * trace of `Call`s; their outcomes are oracle parameters. The goroutines of `Get` are
 * modelled sequentially: the two feed listeners by `Listen`, the cancellation goroutine by
 * the `onCancel` trace that `Get` hands back.
 */
module SocketDataStreamer {
  import opened Wrappers
  import opened BaseApi

  /** The subscriber's `WebSocketParams`, as far as the streamer reads them. */
  datatype Params = Params(query: string, leftOff: string, fetch: int, timeoutMs: int)

  /** What `basenine.Fetch` answers: the rows newest first with the raw first and last metadata. */
  datatype FetchReply = FetchFailed(error: string) | Fetched(rows: seq<Bytes>, firstMeta: Bytes, lastMeta: Bytes)

  /** The outcomes of the store calls `Get` makes: dial, validate, fetch and the live query. */
  datatype Store = Store(connect: Outcome, validate: Outcome, fetch: FetchReply, query: Outcome)

  /** JSON decoding of an entry and of a metadata record. */
  datatype Json = Json(entry: Bytes -> Result<Entry>, metadata: Bytes -> Result<Metadata>)

  /**
   * The subscriber's socket: the outcome of sending the toast error, and the outcome of
   * the n-th send of the historical phase (send 0 is the metadata, send k + 1 the k-th entry).
   */
  datatype Socket = Socket(toast: Outcome, send: nat -> Outcome)

  /**
   * A call the streamer makes on the store or on the subscriber's socket. A fetch reads
   * `limit` rows from `leftOff` in `direction` (-1: newest first) within `timeoutMs`.
   */
  datatype Call =
    | Connect
    | Validate(query: string)
    | FetchFrom(leftOff: string, direction: int, query: string, limit: int, timeoutMs: int)
    | SendMetadata(metadata: Metadata)
    | SendEntry(entry: Entry)
    | SendToastError(error: string)
    | CleanupSocket
    | Query(leftOff: string, query: string)
    | PushData(bytes: Bytes)
    | PushMeta(bytes: Bytes)
    | Close

  /** Why a feed listener stopped reading: the sentinel, a failed send, or its feed ran dry (it would block). */
  datatype ListenerExit = Closed | SendFailed | Waiting

  // ---------------------------------------------------------------------------
  // Reversal of the fetched batch

  /** The batch in the opposite order: element k is element |s| - 1 - k of the input. */
  function Reversed<T>(s: seq<T>): (r: seq<T>)
  {
    seq(|s|, k requires 0 <= k < |s| => s[|s| - 1 - k])
  }

  /** Reversing twice gives back the batch. */
  lemma ReversedTwice<T>(s: seq<T>)
    ensures Reversed(Reversed(s)) == s
  {
  }

  /** `reverseBytesSlice`: appends the rows from the last to the first. */
  method ReverseBytesSlice(arr: seq<Bytes>) returns (newArr: seq<Bytes>)
    ensures |newArr| == |arr|
    ensures forall i :: 0 <= i < |arr| ==> newArr[i] == arr[|arr| - 1 - i]
    ensures newArr == Reversed(arr)
  {
    newArr := [];
    var i := |arr| - 1;
    while i >= 0
      invariant -1 <= i < |arr|
      invariant |newArr| == |arr| - 1 - i
      invariant forall k :: 0 <= k < |newArr| ==> newArr[k] == arr[|arr| - 1 - k]
    {
      newArr := newArr + [arr[i]];
      i := i - 1;
    }
  }

  // ---------------------------------------------------------------------------
  // The historical fetch

  /** The entries of the longest prefix of `rows` in which every row decodes. */
  function DecodablePrefix(rows: seq<Bytes>, json: Json): seq<Entry>
  {
    if rows == [] then []
    else match json.entry(rows[0])
      case Failure(_) => []
      case Success(e) => [e] + DecodablePrefix(rows[1..], json)
  }

  function SendEntries(entries: seq<Entry>): (calls: seq<Call>)
  {
    seq(|entries|, k requires 0 <= k < |entries| => SendEntry(entries[k]))
  }

  datatype Delivery = Delivery(sent: seq<Entry>, err: Outcome)

  /**
   * Delivery of `rows[i..]` once `sent` have been sent: a row that does not decode ends
   * the delivery with its error, a failed send ends it with the send's error.
   */
  function Deliver(rows: seq<Bytes>, json: Json, send: nat -> Outcome, i: nat, sent: seq<Entry>): Delivery
    requires i <= |rows|
    decreases |rows| - i
  {
    if i == |rows| then Delivery(sent, Pass)
    else match json.entry(rows[i])
      case Failure(e) => Delivery(sent, Fail(e))
      case Success(entry) =>
        if send(|sent| + 1).Fail? then Delivery(sent + [entry], send(|sent| + 1))
        else Deliver(rows, json, send, i + 1, sent + [entry])
  }

  datatype FetchOutcome = FetchOutcome(leftOff: string, err: Outcome, calls: seq<Call>)

  /** What `fetch` returns and which calls it makes, as a function of the store's and socket's answers. */
  function FetchModel(p: Params, reply: FetchReply, json: Json, send: nat -> Outcome): FetchOutcome
  {
    if p.fetch <= 0 then FetchOutcome(p.leftOff, Pass, [])
    else
      var fetchCall := FetchFrom(p.leftOff, -1, p.query, p.fetch, p.timeoutMs);
      match reply
      case FetchFailed(e) => FetchOutcome("", Fail(e), [fetchCall])
      case Fetched(rows, firstMeta, lastMeta) =>
        match json.metadata(firstMeta)
        case Failure(e) => FetchOutcome("", Fail(e), [fetchCall])
        case Success(first) =>
          match json.metadata(lastMeta)
          case Failure(e) => FetchOutcome(first.leftOff, Fail(e), [fetchCall])
          case Success(last) =>
            if send(0).Fail? then FetchOutcome(first.leftOff, send(0), [fetchCall, SendMetadata(last)])
            else
              var d := Deliver(Reversed(rows), json, send, 0, []);
              FetchOutcome(first.leftOff, d.err, [fetchCall, SendMetadata(last)] + SendEntries(d.sent))
  }

  /**
   * `fetch`: with a positive fetch count, fetch the batch, take the resume cursor from the
   * first metadata, send the last metadata, then send the entries oldest first.
   */
  method Fetch(p: Params, reply: FetchReply, json: Json, send: nat -> Outcome)
    returns (leftOff: string, err: Outcome, calls: seq<Call>)
    ensures FetchOutcome(leftOff, err, calls) == FetchModel(p, reply, json, send)
    ensures p.fetch <= 0 ==> leftOff == p.leftOff && err == Pass && calls == []
    ensures p.fetch > 0 ==> |calls| >= 1 && calls[0] == FetchFrom(p.leftOff, -1, p.query, p.fetch, p.timeoutMs)
    ensures p.fetch > 0 && (reply.FetchFailed? || json.metadata(reply.firstMeta).Failure?) ==>
              leftOff == "" && err.Fail? && |calls| == 1
    ensures p.fetch > 0 && reply.Fetched? && json.metadata(reply.firstMeta).Success? ==>
              leftOff == json.metadata(reply.firstMeta).value.leftOff
    ensures forall k :: 0 <= k < |calls| && calls[k].SendEntry? ==>
              2 <= k && reply.Fetched? && json.metadata(reply.lastMeta).Success? &&
              calls[1] == SendMetadata(json.metadata(reply.lastMeta).value)
  {
    if p.fetch <= 0 {
      leftOff, err, calls := p.leftOff, Pass, [];
      return;
    }
    leftOff := "";
    calls := [FetchFrom(p.leftOff, -1, p.query, p.fetch, p.timeoutMs)];
    if reply.FetchFailed? {
      err := Fail(reply.error);
      return;
    }
    var first := json.metadata(reply.firstMeta);
    if first.Failure? {
      err := Fail(first.error);
      return;
    }
    leftOff := first.value.leftOff;
    var last := json.metadata(reply.lastMeta);
    if last.Failure? {
      err := Fail(last.error);
      return;
    }
    calls := calls + [SendMetadata(last.value)];
    err := send(0);
    if err.Fail? {
      return;
    }
    var data := ReverseBytesSlice(reply.rows);
    ghost var head := calls;
    var sent: seq<Entry> := [];
    var i := 0;
    while i < |data|
      invariant 0 <= i <= |data|
      invariant Deliver(data, json, send, 0, []) == Deliver(data, json, send, i, sent)
      invariant calls == head + SendEntries(sent)
      invariant err == Pass
    {
      var entry := json.entry(data[i]);
      if entry.Failure? {
        err := Fail(entry.error);
        break;
      }
      var sendErr := send(|sent| + 1);
      calls := calls + [SendEntry(entry.value)];
      sent := sent + [entry.value];
      if sendErr.Fail? {
        err := sendErr;
        return;
      }
      i := i + 1;
    }
  }

  /**
   * The entries delivered are a prefix of the decodable rows, and every send but the last
   * succeeded; unless the last send failed, they are the whole decodable prefix.
   */
  lemma {:induction false} DeliverSendsDecodablePrefix(rows: seq<Bytes>, json: Json, send: nat -> Outcome, i: nat, sent: seq<Entry>)
    requires i <= |rows|
    ensures var d := Deliver(rows, json, send, i, sent);
      |sent| <= |d.sent| && d.sent[..|sent|] == sent &&
      d.sent[|sent|..] <= DecodablePrefix(rows[i..], json) &&
      (forall n :: |sent| < n < |d.sent| ==> send(n).Pass?) &&
      ((d.sent == sent || send(|d.sent|).Pass?) ==> d.sent[|sent|..] == DecodablePrefix(rows[i..], json))
    decreases |rows| - i
  {
    var d := Deliver(rows, json, send, i, sent);
    if i < |rows| {
      assert rows[i..][0] == rows[i] && rows[i..][1..] == rows[i + 1..];
      match json.entry(rows[i])
      case Failure(_) =>
      case Success(e) =>
        if send(|sent| + 1).Pass? {
          DeliverSendsDecodablePrefix(rows, json, send, i + 1, sent + [e]);
          assert d.sent[|sent|..] == [e] + d.sent[|sent| + 1..];
        }
    }
  }

  /** When every row decodes and every send succeeds, all rows are delivered, in order. */
  lemma {:induction false} DeliverAllWhenNothingFails(rows: seq<Bytes>, json: Json, send: nat -> Outcome, i: nat, sent: seq<Entry>)
    requires i <= |rows|
    requires forall k :: i <= k < |rows| ==> json.entry(rows[k]).Success?
    requires forall n :: |sent| < n <= |sent| + |rows| - i ==> send(n).Pass?
    ensures var d := Deliver(rows, json, send, i, sent);
      d.err == Pass && |d.sent| == |sent| + |rows| - i && d.sent[..|sent|] == sent &&
      forall k :: i <= k < |rows| ==> d.sent[|sent| + k - i] == json.entry(rows[k]).value
    decreases |rows| - i
  {
    if i < |rows| {
      var e := json.entry(rows[i]).value;
      DeliverAllWhenNothingFails(rows, json, send, i + 1, sent + [e]);
    }
  }

  /** A delivery that ends without error has delivered every row. */
  lemma {:induction false} DeliverPassOnlyWhenComplete(rows: seq<Bytes>, json: Json, send: nat -> Outcome, i: nat, sent: seq<Entry>)
    requires i <= |rows|
    ensures var d := Deliver(rows, json, send, i, sent);
      d.err == Pass ==> |d.sent| == |sent| + |rows| - i
    decreases |rows| - i
  {
    if i < |rows| && json.entry(rows[i]).Success? && send(|sent| + 1).Pass? {
      DeliverPassOnlyWhenComplete(rows, json, send, i + 1, sent + [json.entry(rows[i]).value]);
    }
  }

  /**
   * Once the batch is fetched and the last metadata sent, the entries sent form a prefix of
   * the decodable part of the REVERSED batch (oldest first), every send before the last one
   * succeeded, unless the last send failed they are that whole decodable part, and an
   * error-free fetch has sent the whole batch.
   */
  lemma FetchSendsPrefixOfReversedBatch(p: Params, reply: FetchReply, json: Json, send: nat -> Outcome)
    requires p.fetch > 0 && reply.Fetched?
    requires json.metadata(reply.firstMeta).Success? && json.metadata(reply.lastMeta).Success?
    requires send(0).Pass?
    ensures var f := FetchModel(p, reply, json, send);
      var sent := Deliver(Reversed(reply.rows), json, send, 0, []).sent;
      f.calls == [FetchFrom(p.leftOff, -1, p.query, p.fetch, p.timeoutMs), SendMetadata(json.metadata(reply.lastMeta).value)] + SendEntries(sent) &&
      sent <= DecodablePrefix(Reversed(reply.rows), json) &&
      (forall n :: 0 < n < |sent| ==> send(n).Pass?) &&
      ((sent == [] || send(|sent|).Pass?) ==> sent == DecodablePrefix(Reversed(reply.rows), json)) &&
      (f.err == Pass ==> |sent| == |reply.rows|)
  {
    var rows := Reversed(reply.rows);
    DeliverSendsDecodablePrefix(rows, json, send, 0, []);
    DeliverPassOnlyWhenComplete(rows, json, send, 0, []);
    assert rows[0..] == rows;
  }

  /**
   * When every row decodes and every send succeeds, the subscriber receives the last
   * metadata and then the whole batch in the reverse of the store's order.
   */
  lemma FetchDeliversOldestFirst(p: Params, reply: FetchReply, json: Json, send: nat -> Outcome)
    requires p.fetch > 0 && reply.Fetched?
    requires json.metadata(reply.firstMeta).Success? && json.metadata(reply.lastMeta).Success?
    requires forall k :: 0 <= k < |reply.rows| ==> json.entry(reply.rows[k]).Success?
    requires forall n :: 0 <= n <= |reply.rows| ==> send(n).Pass?
    ensures var f := FetchModel(p, reply, json, send);
      f.err == Pass &&
      f.leftOff == json.metadata(reply.firstMeta).value.leftOff &&
      |f.calls| == |reply.rows| + 2 &&
      f.calls[0] == FetchFrom(p.leftOff, -1, p.query, p.fetch, p.timeoutMs) &&
      f.calls[1] == SendMetadata(json.metadata(reply.lastMeta).value) &&
      forall k :: 0 <= k < |reply.rows| ==>
        f.calls[|f.calls| - 1 - k] == SendEntry(json.entry(reply.rows[k]).value)
  {
    var rows := Reversed(reply.rows);
    var n := |rows|;
    forall k | 0 <= k < n
      ensures json.entry(rows[k]).Success?
    {
    }
    DeliverAllWhenNothingFails(rows, json, send, 0, []);
    var d := Deliver(rows, json, send, 0, []);
    var f := FetchModel(p, reply, json, send);
    var head := [FetchFrom(p.leftOff, -1, p.query, p.fetch, p.timeoutMs), SendMetadata(json.metadata(reply.lastMeta).value)];
    assert f.calls == head + SendEntries(d.sent);
    forall k | 0 <= k < n
      ensures f.calls[|f.calls| - 1 - k] == SendEntry(json.entry(reply.rows[k]).value)
    {
      assert d.sent[n - 1 - k] == json.entry(rows[n - 1 - k]).value;
      assert f.calls[|f.calls| - 1 - k] == SendEntries(d.sent)[n - 1 - k];
    }
  }

  /**
   * The worked scenario: three rows newest first [e3, e2, e1] from cursor "C" reach the
   * subscriber as metadata(c1), e1, e2, e3, and the live phase resumes from "c3".
   */
  lemma FetchScenario(q: string, r1: Bytes, r2: Bytes, r3: Bytes, e1: Entry, e2: Entry, e3: Entry,
                      m1: Metadata, m3: Metadata, mf: Bytes, ml: Bytes, json: Json, send: nat -> Outcome)
    requires m3.leftOff == "c3" && m1.leftOff == "c1"
    requires json.entry(r1) == Success(e1) && json.entry(r2) == Success(e2) && json.entry(r3) == Success(e3)
    requires json.metadata(mf) == Success(m3) && json.metadata(ml) == Success(m1)
    requires forall n :: 0 <= n <= 3 ==> send(n).Pass?
    ensures FetchModel(Params(q, "C", 3, 0), Fetched([r3, r2, r1], mf, ml), json, send) ==
      FetchOutcome("c3", Pass, [FetchFrom("C", -1, q, 3, 0), SendMetadata(m1), SendEntry(e1), SendEntry(e2), SendEntry(e3)])
  {
    var p, reply := Params(q, "C", 3, 0), Fetched([r3, r2, r1], mf, ml);
    FetchDeliversOldestFirst(p, reply, json, send);
    var f := FetchModel(p, reply, json, send);
    assert reply.rows[0] == r3 && reply.rows[1] == r2 && reply.rows[2] == r1;
    assert f.calls[2] == SendEntry(e1) && f.calls[3] == SendEntry(e2) && f.calls[4] == SendEntry(e3);
  }

  // ---------------------------------------------------------------------------
  // The feed listeners

  /** The values that decode among `items`, in arrival order; undecodable items are skipped. */
  function Decoded<T>(items: seq<Bytes>, decode: Bytes -> Result<T>): seq<T>
  {
    if items == [] then []
    else
      Decoded(items[..|items| - 1], decode) +
      match decode(items[|items| - 1])
      case Success(v) => [v]
      case Failure(_) => []
  }

  /**
   * `handleDataChannel` and `handleMetaChannel` (one loop, generic in what it decodes):
   * read the feed in order, stop on the sentinel, skip what does not decode, forward the
   * rest, and stop on the first failed send. The n-th send's outcome is `send(n)`.
   */
  method Listen<T>(feed: seq<Bytes>, closeChannel: Bytes, decode: Bytes -> Result<T>, send: nat -> Outcome)
    returns (forwarded: seq<T>, consumed: nat, exit: ListenerExit)
    ensures consumed <= |feed|
    ensures forall j :: 0 <= j < consumed && feed[j] == closeChannel ==> exit == Closed && j == consumed - 1
    ensures exit == Closed ==> 0 < consumed && feed[consumed - 1] == closeChannel
    ensures exit == Waiting ==> consumed == |feed| && closeChannel !in feed
    ensures forwarded == Decoded(feed[..if exit == Closed then consumed - 1 else consumed], decode)
    ensures forall n :: 0 <= n < |forwarded| - 1 ==> send(n).Pass?
    ensures exit == SendFailed <==> forwarded != [] && send(|forwarded| - 1).Fail?
    ensures exit == SendFailed ==>
              0 < consumed && decode(feed[consumed - 1]).Success? &&
              forwarded[|forwarded| - 1] == decode(feed[consumed - 1]).value
  {
    forwarded, consumed, exit := [], 0, Waiting;
    while consumed < |feed|
      invariant consumed <= |feed|
      invariant forall j :: 0 <= j < consumed ==> feed[j] != closeChannel
      invariant forwarded == Decoded(feed[..consumed], decode)
      invariant forall n :: 0 <= n < |forwarded| ==> send(n).Pass?
    {
      var bytes := feed[consumed];
      consumed := consumed + 1;
      if bytes == closeChannel {
        exit := Closed;
        return;
      }
      assert feed[..consumed][..consumed - 1] == feed[..consumed - 1];
      match decode(bytes)
      case Failure(_) =>
      case Success(v) =>
        var sendErr := send(|forwarded|);
        forwarded := forwarded + [v];
        if sendErr.Fail? {
          exit := SendFailed;
          return;
        }
    }
    assert feed[..consumed] == feed;
  }

  // ---------------------------------------------------------------------------
  // Get

  /** What the cancellation goroutine does once the subscriber's context ends. */
  function Teardown(closeChannel: Bytes): seq<Call>
  {
    [PushData(closeChannel), PushMeta(closeChannel), Close]
  }

  /**
   * `Get`: dial, validate, fetch, open the live query. Returns the error, the calls made,
   * and the calls the cancellation goroutine will make (none when no goroutine is started).
   * Nothing closes the connection on the validation-failure and query-failure exits.
   */
  method Get(p: Params, store: Store, socket: Socket, json: Json, closeChannel: Bytes)
    returns (err: Outcome, calls: seq<Call>, onCancel: seq<Call>)
    ensures |calls| >= 2 && calls[0] == Connect
    ensures store.connect.Fail? ==> err == store.connect && calls == [Connect, CleanupSocket] && onCancel == []
    ensures store.connect.Pass? ==> calls[1] == Validate(p.query)
    ensures store.connect.Pass? && store.validate.Fail? ==>
              onCancel == [] &&
              (socket.toast.Fail? ==>
                 err == socket.toast &&
                 calls == [Connect, Validate(p.query), SendToastError(store.validate.error)]) &&
              (socket.toast.Pass? ==>
                 err == store.validate &&
                 calls == [Connect, Validate(p.query), SendToastError(store.validate.error), CleanupSocket])
    ensures store.connect.Pass? && store.validate.Pass? ==>
              var f := FetchModel(p, store.fetch, json, socket.send);
              err == store.query &&
              calls == [Connect, Validate(p.query)] + f.calls + [Query(f.leftOff, p.query)] +
                       (if store.query.Fail? then [CleanupSocket] else []) &&
              onCancel == (if store.query.Pass? then Teardown(closeChannel) else [])
    ensures store.validate.Fail? ==> forall c :: c in calls ==> !c.FetchFrom? && !c.Query?
    ensures err == Pass <==> store.connect.Pass? && store.validate.Pass? && store.query.Pass?
    ensures Close !in calls
  {
    calls := [Connect];
    onCancel := [];
    if store.connect.Fail? {
      calls := calls + [CleanupSocket];
      return store.connect, calls, onCancel;
    }
    calls := calls + [Validate(p.query)];
    if store.validate.Fail? {
      calls := calls + [SendToastError(store.validate.error)];
      if socket.toast.Fail? {
        return socket.toast, calls, onCancel;
      }
      calls := calls + [CleanupSocket];
      return store.validate, calls, onCancel;
    }
    var leftOff, fetchErr, fetchCalls := Fetch(p, store.fetch, json, socket.send);
    calls := calls + fetchCalls + [Query(leftOff, p.query)];
    if store.query.Fail? {
      calls := calls + [CleanupSocket];
      return store.query, calls, onCancel;
    }
    onCancel := Teardown(closeChannel);
    err := Pass;
    assert forall c :: c in fetchCalls ==> !c.Close? by {
      forall k | 0 <= k < |fetchCalls| ensures !fetchCalls[k].Close? {
        assert fetchCalls[k] in FetchModel(p, store.fetch, json, socket.send).calls;
      }
    }
  }
}

=== FILE: wrappers.dfy ===
/** Wrappers for Go's `(value, error)` returns and bare `error` results. */
module Wrappers {

  datatype Option<+T> = None | Some(value: T)

  /** A Go `(T, error)` pair where exactly one side is meaningful. */
  datatype Result<+T> = Success(value: T) | Failure(error: string)

  /** A bare Go `error`: `Pass` is nil, `Fail` carries the message. */
  datatype Outcome = Pass | Fail(error: string)

  /** The value of a successful result; an error becomes `None`. */
  function ToOption<T>(r: Result<T>): Option<T>
  {
    match r
    case Success(v) => Some(v)
    case Failure(_) => None
  }
}
